=== FILE: README.md ===
# LiteRT accelerator integration and the RANGE kernel, modelled in Dafny

This project models three sequential pieces of the LiteRT runtime and proves
properties of each:

- **The external buffer context** (`buffer_context.dfy`, module `BufferContext`).
  This is the object that the runtime and every accelerator delegate share during
  one graph execution. The class `ExternalLiteRtBufferContext` has two maps keyed
  by the opaque tensor pointer: buffer requirements and tensor buffers. It also
  has the async-execution-mode flag, which starts as `false`. The `TfLiteTensor*`
  overloads reach the same key as the opaque pointer at that address. A lookup of
  a key that was never registered returns an error result.
- **Plugin loading and discovery** (`dynamic_loading.dfy`, module `DynamicLoading`).
  - `OpenLib` loads one path. `OpenLibList` tries a list of paths and stops at the
    first that loads.
  - `CloseLib` maps the return code of `dlclose` to a status.
  - `FindLiteRtSharedLibs` walks a directory tree and collects the regular files
    whose stem starts with `<prefix>CompilerPlugin` and whose extension is `.so`.
    Stem and extension are split the way `std::filesystem::path` splits them.
    The dynamic linker is an oracle: a function from path to handle, and one from
    handle to return code. The filesystem is a finite tree of entries.
- **The RANGE kernel, integer path** (`range.dfy`, module `Range`).
  - `GetSize` validates the step and computes the element count.
  - `CalculateRange` fills the output array in place.
  - `ResizeOutput`, `EvalImpl`, `Prepare` and `Eval` form the kernel's small state
    machine. It has a `noop` flag, and the output becomes persistent or dynamic.

`common.dfy` (module `LiteRtCommon`) holds the shared status codes and the
`Expected` and `Option` wrappers.

The main properties proved are these:

- The list open returns Ok exactly when some path loads. The handle it returns comes
  from the first such path, and no later path is tried.
- The plugin-name rule is equivalent to this closed form: the name starts with
  `<prefix>CompilerPlugin` and ends in `.so` after it.
- The discovery walk appends exactly the matching regular files of the tree, in
  visit order and at every depth. Earlier results are kept.
- `GetSize` returns the exact number of elements `start + i*delta` that lie strictly
  before `limit`.
- `CalculateRange` writes `start + i*delta` at every index.
- Prepare followed by Eval leaves the same output whether the inputs are constant
  or dynamic, as long as the size computation fits the element type.
- A buffer made by `CreateBufferForTensor` has an allocation of its own: it is shared
  with no earlier created one and, provided every registered buffer was drawn from the
  same `BufferAllocator`, with no registered buffer.

Three facts about the code that a reader might not expect:

- A discovery root that does not exist gives `kLiteRtStatusErrorInvalidArgument`.
- Only one vendor prefix is matched. A file named `fooCompilerPlugin.so` is collected
  only when the prefix is `foo`, so one walk never collects plugins of two vendors.
- The registration calls of the buffer context have no failure condition in their
  declarations, so in the model they always return `kLiteRtStatusOk`.

## Model

| member | source | states |
|---|---|---|
| `BufferContext.ExternalLiteRtBufferContext.constructor` | litert/runtime/external_litert_buffer_context.h:121-130 | a new context has both registries empty and async execution mode off |
| `BufferContext.AsOpaque` | litert/runtime/external_litert_buffer_context.h:52-54 | the `reinterpret_cast` from `const TfLiteTensor*` to `const TfLiteOpaqueTensor*`: the same address, so both overloads reach one key; `RegistrationIsPerKey` states what that gives |
| `BufferContext.RegistrationIsPerKey` | litert/runtime/external_litert_buffer_context.h:45-76 | on any context, registering through the `TfLiteTensor*` overload makes the requirement readable under the opaque key at the same address, and every other key reads as before |
| `BufferContext.ExternalLiteRtBufferContext.RegisterBufferRequirement` | litert/runtime/external_litert_buffer_context.h:39-47 | the requirement is stored under the tensor's key, replacing any earlier one; the buffer map and the flag are unchanged |
| `BufferContext.ExternalLiteRtBufferContext.RegisterBufferRequirementForTfLiteTensor` | litert/runtime/external_litert_buffer_context.h:49-55 | the overload stores under the opaque key with the same address |
| `BufferContext.ExternalLiteRtBufferContext.RegisterLiteRtBufferRequirement` | litert/runtime/external_litert_buffer_context.h:57-64 | a C requirements handle is stored wrapped with `owned = true` |
| `BufferContext.ExternalLiteRtBufferContext.GetBufferRequirement` | litert/runtime/external_litert_buffer_context.h:66-70 | returns the stored requirement and leaves the registry as it was; an unregistered key gives an error result |
| `BufferContext.ExternalLiteRtBufferContext.GetBufferRequirementForTfLiteTensor` | litert/runtime/external_litert_buffer_context.h:72-76 | the overload looks up the same opaque key |
| `BufferContext.ExternalLiteRtBufferContext.RegisterTensorBuffer` | litert/runtime/external_litert_buffer_context.h:78-81 | the buffer is stored under the key, replacing any earlier one; the requirements and the flag are unchanged |
| `BufferContext.ExternalLiteRtBufferContext.RegisterTensorBufferForTfLiteTensor` | litert/runtime/external_litert_buffer_context.h:83-88 | the overload stores under the opaque key with the same address |
| `BufferContext.ExternalLiteRtBufferContext.GetTensorBuffer` | litert/runtime/external_litert_buffer_context.h:90-94 | returns a handle on the registered buffer's allocation (a duplicate) and keeps the entry; an unregistered key gives an error result |
| `BufferContext.ExternalLiteRtBufferContext.GetTensorBufferForTfLiteTensor` | litert/runtime/external_litert_buffer_context.h:96-99 | the overload looks up the same opaque key |
| `BufferContext.ExternalLiteRtBufferContext.CreateBufferForTensor` | litert/runtime/external_litert_buffer_context.h:101-104 | the creation check gets the registered requirement, if any; when it fails, its error is returned and nothing is allocated; otherwise the buffer has a fresh allocation, shared with no buffer handed out before and, provided every registered buffer was drawn from the same `BufferAllocator`, with no registered buffer; neither registry changes, so the caller owns it |
| `BufferContext.ExternalLiteRtBufferContext.CreateBufferForTfLiteTensor` | litert/runtime/external_litert_buffer_context.h:106-110 | the overload creates for the same opaque key, with the same freshness guarantee under the same proviso |
| `BufferContext.ExternalLiteRtBufferContext.SetAsyncExecutionMode` | litert/runtime/external_litert_buffer_context.h:112-116 | the flag takes the given value and neither map changes |
| `BufferContext.ExternalLiteRtBufferContext.IsAsyncExecutionMode` | litert/runtime/external_litert_buffer_context.h:118-119 | returns the flag |
| `BufferContext.AsyncModeScenario` | litert/runtime/external_litert_buffer_context.h:112-130 | a fresh context reports async off; after setting it to `mode` it reports `mode` |
| `BufferContext.RequirementScenario` | litert/runtime/external_litert_buffer_context.h:39-76 | registering through the `TfLiteTensor*` overload is seen through the opaque pointer; a second registration replaces the first; a Get does not remove the entry; another key stays unregistered |
| `BufferContext.BufferOwnershipScenario` | litert/runtime/external_litert_buffer_context.h:78-110 | a registered buffer can be fetched twice, and both fetched handles are on the registered buffer's allocation; creation succeeds exactly when the creation check admits the registered requirement; created buffers are not registered, so a later Get for their tensor fails, and their allocations differ from the registered buffer's and from each other |
| `DynamicLoading.OpenLib` | tflite/experimental/litert/core/dynamic_loading.cc:47-68 | Ok and the handle written exactly when `dlopen` is non-null; otherwise a dynamic-loading error with the handle unchanged |
| `DynamicLoading.FirstLoadable` | tflite/experimental/litert/core/dynamic_loading.cc:37-45 | the index of the first path that loads: it loads, and no earlier path does; none when no path loads |
| `DynamicLoading.OpenLibList` | tflite/experimental/litert/core/dynamic_loading.cc:37-45 | Ok if and only if some path loads; the handle then comes from the first loadable path and only the paths up to it were tried; an empty or all-failing list gives a dynamic-loading error with the handle untouched |
| `DynamicLoading.CloseLib` | tflite/experimental/litert/core/dynamic_loading.cc:70-76 | Ok if and only if `dlclose` returns 0, otherwise a dynamic-loading error |
| `DynamicLoading.LastDot` | tflite/experimental/litert/core/dynamic_loading.cc:98-99 | the position of the last '.' in a file name, or none when there is no dot |
| `DynamicLoading.ExtensionStart` | tflite/experimental/litert/core/dynamic_loading.cc:98-99 | where `path::extension()` starts; its contract is `ExtensionStartIsLastInnerDot` |
| `DynamicLoading.ExtensionStartIsLastInnerDot` | tflite/experimental/litert/core/dynamic_loading.cc:98-99 | the extension starts at the last dot when that dot is not the first character; there is none for "." and "..", or when no dot follows the first character |
| `DynamicLoading.Stem` | tflite/experimental/litert/core/dynamic_loading.cc:98 | `path::stem()`: the name up to where the extension starts; its contract is `StemExtensionSplit` |
| `DynamicLoading.Extension` | tflite/experimental/litert/core/dynamic_loading.cc:99 | `path::extension()`: the name from where the extension starts; its contract is `StemExtensionSplit` |
| `DynamicLoading.StemExtensionSplit` | tflite/experimental/litert/core/dynamic_loading.cc:98-99 | stem followed by extension is the file name; a non-empty extension is one dot-led part with no further dot, after a non-empty stem |
| `DynamicLoading.Find` | tflite/experimental/litert/core/dynamic_loading.cc:100 | `find` returns npos or a position where the pattern occurs |
| `DynamicLoading.FindIsFirstOccurrence` | tflite/experimental/litert/core/dynamic_loading.cc:100 | `find` never returns npos when the pattern occurs, and never returns a position past an occurrence |
| `DynamicLoading.FindZeroIsPrefix` | tflite/experimental/litert/core/dynamic_loading.cc:100 | `find` returns 0 exactly when the pattern is a prefix of the stem |
| `DynamicLoading.PluginPattern` | tflite/experimental/litert/core/dynamic_loading.cc:91-92 | `StrFormat("%sCompilerPlugin", prefix)`: the prefix followed by `CompilerPlugin`; `PluginNameCharacterization` and `OtherVendorRejected` state what matching against it means |
| `DynamicLoading.IsPluginFileName` | tflite/experimental/litert/core/dynamic_loading.cc:100 | the match condition of the walk: `find` of the pattern in the stem is 0 and the extension equals `.so`; its contracts are `PluginRuleOnStemAndExtension` and `PluginNameCharacterization` |
| `DynamicLoading.PluginRuleOnStemAndExtension` | tflite/experimental/litert/core/dynamic_loading.cc:100 | a name matches exactly when its stem starts with the pattern and its extension is `.so` |
| `DynamicLoading.PluginNameCharacterization` | tflite/experimental/litert/core/dynamic_loading.cc:80-100 | a file is a plugin if and only if its name starts with `<prefix>CompilerPlugin` and ends with `.so` after that |
| `DynamicLoading.PatternNameMatches` | tflite/experimental/litert/core/dynamic_loading.cc:91-100 | every name `<prefix>CompilerPlugin<anything>.so` is accepted |
| `DynamicLoading.VersionedLibraryRejected` | tflite/experimental/litert/core/dynamic_loading.cc:98-100 | `<prefix>CompilerPlugin.so.1` is rejected: its extension is `.1` |
| `DynamicLoading.OtherVendorRejected` | tflite/experimental/litert/core/dynamic_loading.cc:91-100 | `fooCompilerPlugin.so` is rejected under every prefix except `foo` |
| `DynamicLoading.PluginsAreMatchingFiles` | tflite/experimental/litert/core/dynamic_loading.cc:95-107 | what the walk collects equals the matching files among all regular files of the tree, in visit order |
| `DynamicLoading.PluginsAtAreMatchingFiles` | tflite/experimental/litert/core/dynamic_loading.cc:95-107 | the same for a single entry: a file is checked, a directory is always walked, any other entry gives nothing |
| `DynamicLoading.NonPatternRejected` | tflite/experimental/litert/core/dynamic_loading.cc:98-100 | a file whose name does not start with `<prefix>CompilerPlugin` is never collected |
| `DynamicLoading.PluginsInThree` | tflite/experimental/litert/core/dynamic_loading.cc:95-107 | a directory's entries are visited in order, and each entry's contribution is appended after those of the entries before it |
| `DynamicLoading.SinglePluginDirectory` | tflite/experimental/litert/core/dynamic_loading.cc:104-105 | a nested directory is walked, and a plugin in it is reported under the nested directory's path |
| `DynamicLoading.TwoPluginsFound` | tflite/experimental/litert/core/dynamic_loading.cc:95-107 | a tree with one plugin at the top, one non-matching file and one plugin in a nested directory yields exactly the two plugin paths, in order |
| `DynamicLoading.JoinPath` | tflite/experimental/litert/core/dynamic_loading.cc:95-96 | the path of a directory entry, `search_path / name`; its contract is `JoinPathShape`, and what it leaves out is under "Left out" |
| `DynamicLoading.JoinPathShape` | tflite/experimental/litert/core/dynamic_loading.cc:95-96 | the entry path starts with the directory and ends with the entry name, with a '/' before the name when the directory is not empty |
| `DynamicLoading.FindLiteRtSharedLibsHelper` | tflite/experimental/litert/core/dynamic_loading.cc:85-110 | a missing search path gives an invalid-argument error and leaves the results alone; otherwise Ok, and the results are the old results followed by the plugins under the path |
| `DynamicLoading.FindLiteRtSharedLibs` | tflite/experimental/litert/core/dynamic_loading.cc:114-118 | the old results stay as a prefix and the appended part is exactly the matching regular files of the tree, in visit order |
| `Range.GetSize` | tflite/kernels/range.cc:45-56 | an error if and only if `delta == 0` or delta points away from limit; otherwise a non-negative size |
| `Range.GetSizeCountsElements` | tflite/kernels/range.cc:51-53 | the size is the number of elements strictly before limit; `start == limit` gives 0; the last element is before limit and the next reaches or passes it |
| `Range.GetSizeInt32AsWritten` | tflite/kernels/range.cc:51-53 | the int32 computation with a 32-bit numerator fails on the same inputs as the exact one |
| `Range.GetSizeInt32AgreesWithoutOverflow` | tflite/kernels/range.cc:51-53 | when `abs(limit - start) + abs(delta)` fits in int32, the C++ size equals the exact count |
| `Range.GetSizeInt32Overflows` | tflite/kernels/range.cc:51-53 | for start 0, limit 2147483647 and delta 1073741824 the exact count is 2, but the 32-bit computation gives -1 |
| `Range.SizeFitsMeansExactInt32` | tflite/kernels/range.cc:51-53 | for int32 inputs whose size arithmetic fits, the C++ computation gives exactly the count; this is the condition the kernel methods require |
| `Range.OverflowingInputDoesNotFit` | tflite/kernels/range.cc:51-53 | the overflowing input (0, 2147483647, 1073741824) and the input (-2147483648, 2147483647, 1) both fall outside that condition |
| `Range.CalculateRange` | tflite/kernels/range.cc:94-106 | after the loop every output index `i` holds `start + i*delta` |
| `Range.OutputTensor.Resize` | tflite/kernels/range.cc:89-91 | the output becomes 1-D with the given size and a fresh buffer of that many elements; its type and allocation stay |
| `Range.OutputTensor.SetAllocationType` | tflite/kernels/range.cc:166-177 | `SetTensorToPersistentRo` and `SetTensorToDynamic`: the output takes the new allocation type; if the type changed, its buffer is freed and left empty, otherwise the buffer is kept; shape and element type stay |
| `Range.OpData.constructor` | tflite/kernels/range.cc:204-206 | the per-node record starts with whatever `noop` value it is given; the C++ leaves it uninitialised |
| `Range.ResizeOutput` | tflite/kernels/range.cc:58-92 | for inputs whose size arithmetic fits their type: an unknown type or a rejected size is an error and the output is untouched; otherwise the output is 1-D with the element count as its only dimension |
| `Range.EvalImpl` | tflite/kernels/range.cc:108-129 | an integer output is filled with the sequence; any other type is an error and the data is untouched |
| `Range.Prepare` | tflite/kernels/range.cc:131-179 | the node must have 3 inputs and 1 output, or nothing changes; inputs must be scalars of int32, int64 or float32, with limit and delta of start's type; the output takes that type; constant inputs make the output persistent, and it is sized and filled, with `noop` set; otherwise the output is made dynamic and `noop` is false; whenever the allocation type changes, the old buffer is freed, also on the error return after a rejected constant size |
| `Range.Eval` | tflite/kernels/range.cc:181-202 | with `noop` set, Ok and the output untouched; otherwise a dynamic output is resized to the count first, then filled with the sequence |
| `Range.PrepareThenEval` | tflite/kernels/range.cc:131-202 | with accepted integer inputs whose size arithmetic fits their type, Prepare and Eval both succeed exactly when GetSize accepts the inputs; the output is then the full sequence, for constant and dynamic inputs alike |

## Left out

- The `.cc` file of the buffer context is not part of this model. So the registration calls always succeed and overwrite the old entry. The header gives no failure condition.
- `BufferContext.ExternalLiteRtBufferContext.GetBufferRequirement`: the error code for a missing key is taken to be `kLiteRtStatusErrorNotFound`. The header only says that the result is an `Expected`.
- `BufferContext.ExternalLiteRtBufferContext.GetTensorBuffer`: reference counting is not modelled. A duplicate is a handle on the same allocation, and the count that keeps the allocation alive is out of scope.
- `BufferContext.ExternalLiteRtBufferContext.CreateBufferForTensor`: whether creation succeeds is an oracle (`CreationCheck`), given the registered requirement if any. The implementation that chooses the memory type and size is outside this model. Memory is a `BufferAllocator` that hands out distinct allocation numbers and never releases them.
- Requirements and buffers are opaque values. Their memory types, sizes and strides are not modelled.
- Real `dlopen`, `dlclose` and `dlerror`, and the choice of `RTLD_*` flags, are foreign calls. They are modelled as oracles from path to handle and from handle to return code.
- `DynamicLoading.OpenLib`: the path is taken as the characters of the `absl::string_view`. The C++ passes `so_path.data()` to `dlopen`, which reads up to the first NUL and ignores the view's size. The model assumes a view with non-null data that is NUL-terminated at its end and holds no embedded NUL; a view cut from a longer string, or a null view, is not modelled. `OpenLibList` inherits this through `OpenLib`.
- `DynamicLoading.FindLiteRtSharedLibs`: the root is taken as the characters of the `absl::string_view`. The C++ builds `std::string root(search_path.data())`, which reads up to the first NUL and ignores the view's size; for a default-constructed view `data()` is null and that construction is undefined. The model assumes a view with non-null data that is NUL-terminated at its end and holds no embedded NUL; a view cut from a longer string, or a null view, is not modelled.
- Logging is not modelled, so `log_failure` has no effect in the model.
- `DynamicLoading.FindLiteRtSharedLibs`: its requires excludes a search path that names anything but a directory: a regular file, a FIFO, a socket. In C++, `directory_iterator` throws on such a path, and this model has no exceptions.
- `DynamicLoading.FindLiteRtSharedLibsHelper`: the same requires, for the same reason.
- Filesystem errors raised during iteration, such as permission errors, are also not modelled.
- The filesystem is a finite tree, so symlink cycles cannot occur. The C++ walk has no cycle guard: `is_directory` follows symlinks, so on a cycle it recurses until the path can no longer be resolved, and then `directory_iterator` throws.
- `Exists` is modelled as the search path resolving to a tree node.
- `is_regular_file` follows symlinks. In the model, each entry simply is a file, a directory or something else.
- `kLiteRtSharedLibPrefix` is a build-time constant defined outside dynamic_loading.cc, so the model takes it as the `prefix` parameter.
- `DynamicLoading.JoinPath` models `path / name` only for a plain file name. It inserts '/' unless the directory is empty or already ends in '/'.
- The float32 path of RANGE is left out: `std::ceil` on a float division and `CalculateRange<float>` are floating-point numerics.
- `Range.Prepare`: its requires excludes float32 inputs when all three are constant, because only then does Prepare compute a float size.
- `Range.Eval`: its requires excludes a float32 start or output when `noop` is not set.
- `Range.ResizeOutput`: its requires excludes a float32 start.
- `Range.EvalImpl`: its requires excludes a float32 output.
- `Range.GetSize`: it is the exact count on unbounded integers. The C++ can overflow in `limit - start` and in `abs(limit - start) + abs(delta)`, and narrows an int64 count into an `int`. `SizeFits` names the inputs on which none of this happens, and `GetSizeInt32AsWritten` shows one overflow.
- `Range.ResizeOutput`: its requires is `SizeFits` for start's type. The model does not say what the kernel does when the size computation overflows (undefined behaviour in C++).
- `Range.Prepare`: with three constant accepted inputs, its requires is `SizeFits`. The overflowing case is not modelled.
- `Range.Eval`: when `noop` is clear and the output is dynamic, its requires is `SizeFits`. The overflowing case is not modelled.
- `Range.PrepareThenEval`: it requires `SizeFits`. Where the C++ size computation overflows, the kernel's outcome is not modelled.
- `Range.CalculateRange`: values are mathematical integers. After the last element is stored, the final `value += delta` can overflow the element type, and that is not modelled.
- tflite/kernels/kernel_util.h is not part of this model. `Range.OutputTensor.SetAllocationType` follows TFLite's helpers there: a change of allocation type frees the data and leaves it null, shown as an empty buffer with `released` set.
- `Range.Eval`: on an output that is neither dynamic nor already filled (`noop` clear) and whose buffer was freed, the C++ writes through a null pointer; the model writes nothing. Prepare never leaves an output in that state on a path that returns Ok.
- `Range.OutputTensor.Resize`: `context->ResizeTensor` always succeeds in the model. Allocation failure is not modelled.
- `GetInputSafe` and `GetOutputSafe` are not modelled except for one case: Eval on a node with fewer than three inputs fails.
- Kernel logging, `TfLiteIntArrayCreate`, `Free` and the static `Register_RANGE` table are context plumbing.

## Findings

| source | as written | input that shows it | evidently intended | confidence | as-written member | corrected member |
|---|---|---|---|---|---|---|
| tflite/kernels/range.cc:51-53 | for `int32_t`, the numerator `abs(limit - start) + abs(delta) - 1` is evaluated in 32 bits and overflows when the sum exceeds 2147483647 | start = 0, limit = 2147483647, delta = 1073741824: the sum wraps and the size becomes -1 | size 2 (elements 0 and 1073741824), the ceiling of 2147483647 / 1073741824 | medium: signed overflow is undefined behaviour, and -1 assumes two's-complement wrap-around; not executed | `Range.GetSizeInt32Overflows` | `Range.GetSizeCountsElements` |

=== FILE: buffer_context.dfy ===
/**
 * The per-tensor buffer registry that the runtime and every accelerator delegate
 * share during one graph execution: buffer requirements and tensor buffers keyed
 * by the opaque tensor pointer, plus the async-execution-mode flag.
 */
module BufferContext {
  import opened LiteRtCommon

  /** A `const TfLiteOpaqueTensor*`: only its address identifies it. */
  datatype OpaqueTensor = OpaqueTensor(address: nat)

  /** A `const TfLiteTensor*`: the same tensor slot seen through the non-opaque type. */
  datatype TfLiteTensor = TfLiteTensor(address: nat)

  /** `reinterpret_cast<const TfLiteOpaqueTensor*>`: keeps the address. */
  function AsOpaque(tensor: TfLiteTensor): OpaqueTensor
  {
    OpaqueTensor(tensor.address)
  }

  /** A `LiteRtTensorBufferRequirements` handle of the C API. */
  datatype LiteRtRequirementsHandle = LiteRtRequirementsHandle(id: nat)

  /**
   * The C++ `TensorBufferRequirements` wrapper: the C handle it wraps and whether the
   * wrapper releases that handle when it is destroyed. Its contents are opaque here.
   */
  datatype TensorBufferRequirements = TensorBufferRequirements(handle: LiteRtRequirementsHandle, owned: bool)

  /**
   * A `TensorBuffer`, identified by the reference-counted allocation behind it; a
   * duplicate is another handle on the same allocation, so it compares equal here.
   */
  datatype TensorBuffer = TensorBuffer(allocation: nat)

  /**
   * Whether creating a buffer succeeds, given the requirement registered for the
   * tensor if any: StatusOk, or the error the creation fails with.
   */
  type CreationCheck = Option<TensorBufferRequirements> -> LiteRtStatus

  /** The memory that managed tensor buffers are drawn from. */
  class BufferAllocator {
    /** The allocations handed out so far. */
    var live: set<nat>
    var next: nat

    predicate Valid()
      reads this
    {
      forall a :: a in live ==> a < next
    }

    constructor ()
      ensures Valid() && live == {}
    {
      live := {};
      next := 0;
    }

    /** A new allocation, distinct from every allocation handed out before. */
    method Allocate() returns (allocation: nat)
      requires Valid()
      modifies this
      ensures Valid()
      ensures allocation !in old(live) && live == old(live) + {allocation}
    {
      allocation := next;
      live := live + {allocation};
      next := next + 1;
    }
  }

  class ExternalLiteRtBufferContext {
    var bufferRequirements: map<OpaqueTensor, TensorBufferRequirements>
    var tensorBuffers: map<OpaqueTensor, TensorBuffer>
    var asyncExecutionMode: bool

    /** A new context has empty registries and async execution switched off. */
    constructor ()
      ensures bufferRequirements == map[] && tensorBuffers == map[]
      ensures !asyncExecutionMode
    {
      bufferRequirements := map[];
      tensorBuffers := map[];
      asyncExecutionMode := false;
    }

    /** Stores the requirement for `tensor`, replacing any earlier one; the context owns it. */
    method RegisterBufferRequirement(tensor: OpaqueTensor, requirements: TensorBufferRequirements)
      returns (status: LiteRtStatus)
      modifies this
      ensures status == StatusOk
      ensures bufferRequirements == old(bufferRequirements)[tensor := requirements]
      ensures tensorBuffers == old(tensorBuffers) && asyncExecutionMode == old(asyncExecutionMode)
    {
      bufferRequirements := bufferRequirements[tensor := requirements];
      status := StatusOk;
    }

    /** The `const TfLiteTensor*` overload: the same entry as the opaque pointer at that address. */
    method RegisterBufferRequirementForTfLiteTensor(tensor: TfLiteTensor, requirements: TensorBufferRequirements)
      returns (status: LiteRtStatus)
      modifies this
      ensures status == StatusOk
      ensures bufferRequirements == old(bufferRequirements)[AsOpaque(tensor) := requirements]
      ensures tensorBuffers == old(tensorBuffers) && asyncExecutionMode == old(asyncExecutionMode)
    {
      status := RegisterBufferRequirement(AsOpaque(tensor), requirements);
    }

    /** Wraps a C requirements handle in an owning wrapper and registers it. */
    method RegisterLiteRtBufferRequirement(tensor: TfLiteTensor, handle: LiteRtRequirementsHandle)
      returns (status: LiteRtStatus)
      modifies this
      ensures status == StatusOk
      ensures bufferRequirements == old(bufferRequirements)[AsOpaque(tensor) := TensorBufferRequirements(handle, true)]
      ensures tensorBuffers == old(tensorBuffers) && asyncExecutionMode == old(asyncExecutionMode)
    {
      status := RegisterBufferRequirement(AsOpaque(tensor), TensorBufferRequirements(handle, true));
    }

    /** The registered requirement, which stays in (and owned by) the context; not found otherwise. */
    method GetBufferRequirement(tensor: OpaqueTensor) returns (r: Expected<TensorBufferRequirements>)
      ensures tensor in bufferRequirements ==> r == Value(bufferRequirements[tensor])
      ensures tensor !in bufferRequirements ==> r == Unexpected(ErrorNotFound)
    {
      if tensor in bufferRequirements {
        r := Value(bufferRequirements[tensor]);
      } else {
        r := Unexpected(ErrorNotFound);
      }
    }

    method GetBufferRequirementForTfLiteTensor(tensor: TfLiteTensor) returns (r: Expected<TensorBufferRequirements>)
      ensures AsOpaque(tensor) in bufferRequirements ==> r == Value(bufferRequirements[AsOpaque(tensor)])
      ensures AsOpaque(tensor) !in bufferRequirements ==> r == Unexpected(ErrorNotFound)
    {
      r := GetBufferRequirement(AsOpaque(tensor));
    }

    /** Stores the buffer for `tensor`, replacing any earlier one; the context owns it. */
    method RegisterTensorBuffer(tensor: OpaqueTensor, buffer: TensorBuffer) returns (status: LiteRtStatus)
      modifies this
      ensures status == StatusOk
      ensures tensorBuffers == old(tensorBuffers)[tensor := buffer]
      ensures bufferRequirements == old(bufferRequirements) && asyncExecutionMode == old(asyncExecutionMode)
    {
      tensorBuffers := tensorBuffers[tensor := buffer];
      status := StatusOk;
    }

    method RegisterTensorBufferForTfLiteTensor(tensor: TfLiteTensor, buffer: TensorBuffer) returns (status: LiteRtStatus)
      modifies this
      ensures status == StatusOk
      ensures tensorBuffers == old(tensorBuffers)[AsOpaque(tensor) := buffer]
      ensures bufferRequirements == old(bufferRequirements) && asyncExecutionMode == old(asyncExecutionMode)
    {
      status := RegisterTensorBuffer(AsOpaque(tensor), buffer);
    }

    /**
     * A duplicate of the registered buffer (same allocation); the context keeps its
     * own entry, so the registry is left as it was. Not found when nothing is registered.
     */
    method GetTensorBuffer(tensor: OpaqueTensor) returns (r: Expected<TensorBuffer>)
      ensures tensor in tensorBuffers ==> r.Value? && r.value.allocation == tensorBuffers[tensor].allocation
      ensures tensor !in tensorBuffers ==> r == Unexpected(ErrorNotFound)
    {
      if tensor in tensorBuffers {
        r := Value(tensorBuffers[tensor]);
      } else {
        r := Unexpected(ErrorNotFound);
      }
    }

    method GetTensorBufferForTfLiteTensor(tensor: TfLiteTensor) returns (r: Expected<TensorBuffer>)
      ensures AsOpaque(tensor) in tensorBuffers ==> r.Value? && r.value.allocation == tensorBuffers[AsOpaque(tensor)].allocation
      ensures AsOpaque(tensor) !in tensorBuffers ==> r == Unexpected(ErrorNotFound)
    {
      r := GetTensorBuffer(AsOpaque(tensor));
    }

    /** The requirement registered for `tensor`, if any. */
    function RequirementFor(tensor: OpaqueTensor): Option<TensorBufferRequirements>
      reads this
    {
      if tensor in bufferRequirements then Some(bufferRequirements[tensor]) else None
    }

    /** Every registered buffer lives in allocations that `allocator` handed out. */
    predicate BuffersLiveIn(allocator: BufferAllocator)
      reads this, allocator
    {
      forall t :: t in tensorBuffers ==> tensorBuffers[t].allocation in allocator.live
    }

    /**
     * A new buffer for `tensor`, made for the requirement registered for it (if any)
     * on a fresh allocation. The caller owns it: neither registry changes, and the
     * allocation is shared with no buffer handed out before, registered ones included.
     */
    method CreateBufferForTensor(tensor: OpaqueTensor, allocator: BufferAllocator, check: CreationCheck)
      returns (r: Expected<TensorBuffer>)
      requires allocator.Valid()
      modifies allocator
      ensures allocator.Valid()
      ensures check(RequirementFor(tensor)) != StatusOk ==>
                r == Unexpected(check(RequirementFor(tensor))) && allocator.live == old(allocator.live)
      ensures check(RequirementFor(tensor)) == StatusOk ==>
                && r.Value? && r.value.allocation !in old(allocator.live)
                && allocator.live == old(allocator.live) + {r.value.allocation}
      ensures r.Value? && old(BuffersLiveIn(allocator)) ==>
                forall t :: t in tensorBuffers ==> tensorBuffers[t].allocation != r.value.allocation
    {
      var status := check(RequirementFor(tensor));
      if status != StatusOk {
        return Unexpected(status);
      }
      var allocation := allocator.Allocate();
      r := Value(TensorBuffer(allocation));
    }

    method CreateBufferForTfLiteTensor(tensor: TfLiteTensor, allocator: BufferAllocator, check: CreationCheck)
      returns (r: Expected<TensorBuffer>)
      requires allocator.Valid()
      modifies allocator
      ensures allocator.Valid()
      ensures check(RequirementFor(AsOpaque(tensor))) != StatusOk ==>
                r == Unexpected(check(RequirementFor(AsOpaque(tensor)))) && allocator.live == old(allocator.live)
      ensures check(RequirementFor(AsOpaque(tensor))) == StatusOk ==>
                && r.Value? && r.value.allocation !in old(allocator.live)
                && allocator.live == old(allocator.live) + {r.value.allocation}
      ensures r.Value? && old(BuffersLiveIn(allocator)) ==>
                forall t :: t in tensorBuffers ==> tensorBuffers[t].allocation != r.value.allocation
    {
      r := CreateBufferForTensor(AsOpaque(tensor), allocator, check);
    }

    /** Sets the flag and nothing else. */
    method SetAsyncExecutionMode(enabled: bool)
      modifies this`asyncExecutionMode
      ensures asyncExecutionMode == enabled
      ensures bufferRequirements == old(bufferRequirements) && tensorBuffers == old(tensorBuffers)
    {
      asyncExecutionMode := enabled;
    }

    method IsAsyncExecutionMode() returns (enabled: bool)
      ensures enabled == asyncExecutionMode
    {
      enabled := asyncExecutionMode;
    }
  }

  /**
   * A fresh context reports async mode off; after SetAsyncExecutionMode(mode) it
   * reports `mode`, and both registries are still empty.
   */
  method AsyncModeScenario(mode: bool) returns (before: bool, after: bool, noRequirement: Expected<TensorBufferRequirements>)
    ensures !before && after == mode
    ensures noRequirement == Unexpected(ErrorNotFound)
  {
    var context := new ExternalLiteRtBufferContext();
    before := context.IsAsyncExecutionMode();
    context.SetAsyncExecutionMode(mode);
    after := context.IsAsyncExecutionMode();
    noRequirement := context.GetBufferRequirement(OpaqueTensor(0));
  }

  /**
   * Requirements registered through the `TfLiteTensor*` overload are found through the
   * opaque pointer at the same address; a second registration replaces the first,
   * and another tensor's key is not affected.
   */
  method RequirementScenario(tensor: TfLiteTensor, other: OpaqueTensor,
                             first: TensorBufferRequirements, second: TensorBufferRequirements)
    returns (afterFirst: Expected<TensorBufferRequirements>, afterSecond: Expected<TensorBufferRequirements>,
             again: Expected<TensorBufferRequirements>, ofOther: Expected<TensorBufferRequirements>)
    requires other != AsOpaque(tensor)
    ensures afterFirst == Value(first)
    ensures afterSecond == Value(second) && again == Value(second)
    ensures ofOther == Unexpected(ErrorNotFound)
  {
    var context := new ExternalLiteRtBufferContext();
    var _ := context.RegisterBufferRequirementForTfLiteTensor(tensor, first);
    afterFirst := context.GetBufferRequirement(AsOpaque(tensor));
    var _ := context.RegisterBufferRequirement(AsOpaque(tensor), second);
    afterSecond := context.GetBufferRequirementForTfLiteTensor(tensor);
    again := context.GetBufferRequirement(AsOpaque(tensor));
    ofOther := context.GetBufferRequirement(other);
  }

  /**
   * On any context, registering through the `TfLiteTensor*` overload makes the
   * requirement visible under the opaque key at the same address and under no other:
   * every other key reads as it did before.
   */
  method RegistrationIsPerKey(context: ExternalLiteRtBufferContext, tensor: TfLiteTensor,
                              requirements: TensorBufferRequirements, key: OpaqueTensor)
    returns (before: Expected<TensorBufferRequirements>, after: Expected<TensorBufferRequirements>)
    modifies context
    ensures key == AsOpaque(tensor) ==> after == Value(requirements)
    ensures key != AsOpaque(tensor) ==> after == before
  {
    before := context.GetBufferRequirement(key);
    var _ := context.RegisterBufferRequirementForTfLiteTensor(tensor, requirements);
    after := context.GetBufferRequirement(key);
  }

  /**
   * A registered buffer can be fetched any number of times, each time as a handle
   * on the same allocation. Buffers made by CreateBufferForTensor are not registered,
   * so fetching their tensor still fails, and each of them has an allocation of its
   * own, distinct from the registered buffer's and from each other's.
   */
  method BufferOwnershipScenario(tensor: TfLiteTensor, other: OpaqueTensor,
                                 requirements: TensorBufferRequirements, check: CreationCheck)
    returns (buffer: TensorBuffer, first: Expected<TensorBuffer>, second: Expected<TensorBuffer>,
             created: Expected<TensorBuffer>, createdAgain: Expected<TensorBuffer>, afterCreate: Expected<TensorBuffer>)
    requires other != AsOpaque(tensor)
    ensures first.Value? && first.value.allocation == buffer.allocation
    ensures second.Value? && second.value.allocation == buffer.allocation
    ensures created.Value? <==> check(Some(requirements)) == StatusOk
    ensures created.Unexpected? ==> created.status == check(Some(requirements))
    ensures created.Value? ==> created.value.allocation != buffer.allocation
    ensures created.Value? && createdAgain.Value? ==> created.value.allocation != createdAgain.value.allocation
    ensures afterCreate == Unexpected(ErrorNotFound)
  {
    var allocator := new BufferAllocator();
    var context := new ExternalLiteRtBufferContext();
    var allocation := allocator.Allocate();
    buffer := TensorBuffer(allocation);
    var _ := context.RegisterTensorBufferForTfLiteTensor(tensor, buffer);
    first := context.GetTensorBuffer(AsOpaque(tensor));
    second := context.GetTensorBufferForTfLiteTensor(tensor);
    var _ := context.RegisterBufferRequirement(other, requirements);
    created := context.CreateBufferForTensor(other, allocator, check);
    createdAgain := context.CreateBufferForTensor(other, allocator, check);
    afterCreate := context.GetTensorBuffer(other);
  }
}

=== FILE: common.dfy ===
/**
 * Status codes and result wrappers shared by the LiteRT runtime pieces of this model.
 */
module LiteRtCommon {

  /** The subset of `LiteRtStatus` codes that the modelled code can produce. */
  datatype LiteRtStatus =
    | StatusOk
    | ErrorInvalidArgument
    | ErrorNotFound
    | ErrorDynamicLoading
    | ErrorMemoryAllocationFailure

  /** `litert::Expected<T>`: either a value or the status that explains its absence. */
  datatype Expected<+T> = Value(value: T) | Unexpected(status: LiteRtStatus)

  datatype Option<+T> = None | Some(value: T)
}

=== FILE: dynamic_loading.dfy ===
/**
 * Loading and unloading compiler-plugin shared libraries, and discovering them
 * under a directory tree by file name.
 *
 * The dynamic linker is an oracle: `dlopen` maps a path to the handle it would
 * return (NullHandle for a failed load) and `dlclose` maps a handle to its return
 * code. The filesystem is a finite tree of entries.
 */
module DynamicLoading {
  import opened LiteRtCommon

  /** A `void*` library handle; NullHandle is `nullptr`. */
  datatype LibHandle = NullHandle | Handle(id: nat)

  type DlOpen = string -> LibHandle
  type DlClose = LibHandle -> int

  // ---------------------------------------------------------------------------
  // Opening and closing libraries
  // ---------------------------------------------------------------------------

  /**
   * Loads one library. `*lib_handle` is the in/out pair (libHandle, handleOut): it is
   * written only when the load succeeds. `logFailure` only controls logging.
   */
  method OpenLib(soPath: string, libHandle: LibHandle, logFailure: bool, dlopen: DlOpen)
    returns (status: LiteRtStatus, handleOut: LibHandle)
    ensures dlopen(soPath) == NullHandle ==> status == ErrorDynamicLoading && handleOut == libHandle
    ensures dlopen(soPath) != NullHandle ==> status == StatusOk && handleOut == dlopen(soPath)
  {
    var res := dlopen(soPath);
    if res == NullHandle {
      return ErrorDynamicLoading, libHandle;
    }
    status, handleOut := StatusOk, res;
  }

  /** The index of the first path the loader can open, if there is one. */
  function FirstLoadable(soPaths: seq<string>, dlopen: DlOpen): (k: Option<nat>)
    ensures k.Some? ==> k.value < |soPaths| && dlopen(soPaths[k.value]) != NullHandle
    ensures k.Some? ==> forall j :: 0 <= j < k.value ==> dlopen(soPaths[j]) == NullHandle
    ensures k.None? ==> forall j :: 0 <= j < |soPaths| ==> dlopen(soPaths[j]) == NullHandle
  {
    if soPaths == [] then None
    else if dlopen(soPaths[0]) != NullHandle then Some(0)
    else match FirstLoadable(soPaths[1..], dlopen)
      case None => None
      case Some(k) => Some(k + 1)
  }

  /**
   * Tries each path in order and stops at the first that loads; the handle is the
   * one that path produced. When no path loads (including an empty list) the status
   * is a dynamic-loading error and the handle is untouched. `attempted` is the list
   * of paths handed to the loader.
   */
  method OpenLibList(soPaths: seq<string>, libHandle: LibHandle, logFailure: bool, dlopen: DlOpen)
    returns (status: LiteRtStatus, handleOut: LibHandle, ghost attempted: seq<string>)
    ensures status == StatusOk <==> exists i :: 0 <= i < |soPaths| && dlopen(soPaths[i]) != NullHandle
    ensures FirstLoadable(soPaths, dlopen).Some? ==>
              var k := FirstLoadable(soPaths, dlopen).value;
              status == StatusOk && handleOut == dlopen(soPaths[k]) && attempted == soPaths[..k + 1]
    ensures FirstLoadable(soPaths, dlopen).None? ==>
              status == ErrorDynamicLoading && handleOut == libHandle && attempted == soPaths
  {
    handleOut := libHandle;
    attempted := [];
    var i := 0;
    while i < |soPaths|
      invariant 0 <= i <= |soPaths|
      invariant handleOut == libHandle && attempted == soPaths[..i]
      invariant forall j :: 0 <= j < i ==> dlopen(soPaths[j]) == NullHandle
    {
      var s;
      attempted := attempted + [soPaths[i]];
      s, handleOut := OpenLib(soPaths[i], handleOut, logFailure, dlopen);
      if s == StatusOk {
        assert FirstLoadable(soPaths, dlopen) == Some(i);
        return StatusOk, handleOut, attempted;
      }
      i := i + 1;
    }
    assert attempted == soPaths;
    status := ErrorDynamicLoading;
  }

  /** Unloads a library: Ok exactly when `dlclose` returns 0, a dynamic-loading error otherwise. */
  function CloseLib(libHandle: LibHandle, dlclose: DlClose): (status: LiteRtStatus)
    ensures status == StatusOk <==> dlclose(libHandle) == 0
    ensures status != StatusOk ==> status == ErrorDynamicLoading
  {
    if 0 != dlclose(libHandle) then ErrorDynamicLoading else StatusOk
  }

  // ---------------------------------------------------------------------------
  // File names as std::filesystem::path splits them
  // ---------------------------------------------------------------------------

  /** The index of the last '.' in `s`, if any. */
  function LastDot(s: string): (r: Option<nat>)
    ensures r.Some? ==> r.value < |s| && s[r.value] == '.'
    ensures r.Some? ==> forall j :: r.value < j < |s| ==> s[j] != '.'
    ensures r.None? ==> forall j :: 0 <= j < |s| ==> s[j] != '.'
  {
    if s == [] then None
    else if s[|s| - 1] == '.' then Some(|s| - 1)
    else LastDot(s[..|s| - 1])
  }

  /**
   * Where the extension of a file name starts: at its last dot, unless the name is
   * "." or "..", has no dot, or its only dot-led part is the whole name (".profile").
   */
  function ExtensionStart(name: string): Option<nat>
  {
    if name == "." || name == ".." then None
    else match LastDot(name)
      case None => None
      case Some(i) => if i == 0 then None else Some(i)
  }

  /** `path::stem()` of a file name. */
  function Stem(name: string): string
  {
    match ExtensionStart(name)
    case None => name
    case Some(i) => name[..i]
  }

  /** `path::extension()` of a file name. */
  function Extension(name: string): string
  {
    match ExtensionStart(name)
    case None => ""
    case Some(i) => name[i..]
  }

  /**
   * The extension starts at the last dot, provided that dot is not the first
   * character; there is none for "." and "..", or when no dot follows the first
   * character.
   */
  lemma ExtensionStartIsLastInnerDot(name: string)
    ensures var r := ExtensionStart(name);
            && (r.Some? ==> 0 < r.value < |name| && name[r.value] == '.')
            && (r.Some? ==> forall j :: r.value < j < |name| ==> name[j] != '.')
            && (r.None? <==> name == "." || name == ".." || forall j :: 1 <= j < |name| ==> name[j] != '.')
  {
  }

  /**
   * Stem and extension split the name: together they give it back, and a non-empty
   * extension is a single dot-led part after a non-empty stem.
   */
  lemma StemExtensionSplit(name: string)
    ensures Stem(name) + Extension(name) == name
    ensures Extension(name) != [] ==>
              Extension(name)[0] == '.' && Stem(name) != [] &&
              forall j :: 1 <= j < |Extension(name)| ==> Extension(name)[j] != '.'
  {
    match ExtensionStart(name)
    case None =>
    case Some(i) =>
      assert name[..i] + name[i..] == name;
      var e := Extension(name);
      forall j | 1 <= j < |e| ensures e[j] != '.' {
        assert e[j] == name[i + j];
      }
  }

  // ---------------------------------------------------------------------------
  // The plugin name rule
  // ---------------------------------------------------------------------------

  /** `std::string::npos`. */
  const NPOS: int := -1

  /** `needle` occurs in `haystack` starting at index `k`. */
  predicate OccursAt(haystack: string, needle: string, k: int)
  {
    0 <= k && k + |needle| <= |haystack| && haystack[k..k + |needle|] == needle
  }

  /** `haystack.find(needle)`: the first index where `needle` occurs, NPOS when it never does. */
  function Find(haystack: string, needle: string): (r: int)
    ensures r == NPOS || OccursAt(haystack, needle, r)
    decreases |haystack|
  {
    if needle <= haystack then 0
    else if haystack == [] then NPOS
    else
      var r := Find(haystack[1..], needle);
      if r == NPOS then NPOS else r + 1
  }

  /** `find` reports the first occurrence, and NPOS only when there is none. */
  lemma {:induction false} FindIsFirstOccurrence(haystack: string, needle: string, k: int)
    requires OccursAt(haystack, needle, k)
    ensures Find(haystack, needle) != NPOS && Find(haystack, needle) <= k
    decreases |haystack|
  {
    if !(needle <= haystack) {
      assert k != 0;
      assert haystack[1..][k - 1..k - 1 + |needle|] == haystack[k..k + |needle|];
      FindIsFirstOccurrence(haystack[1..], needle, k - 1);
    }
  }

  const COMPILER_PLUGIN: string := "CompilerPlugin"
  const SO_EXTENSION: string := ".so"

  /** `StrFormat("%sCompilerPlugin", prefix)`. */
  function PluginPattern(prefix: string): string
  {
    prefix + COMPILER_PLUGIN
  }

  /** A regular file is a plugin when its stem starts with the pattern and its extension is ".so". */
  predicate IsPluginFileName(name: string, prefix: string)
  {
    Find(Stem(name), PluginPattern(prefix)) == 0 && SO_EXTENSION == Extension(name)
  }

  /** The rule reads: the stem starts with the pattern, and the extension is exactly ".so". */
  lemma PluginRuleOnStemAndExtension(name: string, prefix: string)
    ensures IsPluginFileName(name, prefix) <==> PluginPattern(prefix) <= Stem(name) && Extension(name) == SO_EXTENSION
  {
    FindZeroIsPrefix(Stem(name), PluginPattern(prefix));
  }

  /** `find` returns 0 exactly when the needle is a prefix. */
  lemma FindZeroIsPrefix(haystack: string, needle: string)
    ensures Find(haystack, needle) == 0 <==> needle <= haystack
  {
  }

  /**
   * The plugin rule in closed form: the name starts with `<prefix>CompilerPlugin`
   * and ends with ".so" after it.
   */
  lemma PluginNameCharacterization(name: string, prefix: string)
    ensures IsPluginFileName(name, prefix) <==>
              |PluginPattern(prefix)| + 3 <= |name| && PluginPattern(prefix) <= name &&
              name[|name| - 3..] == SO_EXTENSION
  {
    var p := PluginPattern(prefix);
    FindZeroIsPrefix(Stem(name), p);
    assert p[|p| - 1] == 'n';
    if IsPluginFileName(name, prefix) {
      var i := ExtensionStart(name).value;
      assert name[i..] == SO_EXTENSION;
      assert p <= name[..i];
      assert name[..i] <= name;
    }
    if |p| + 3 <= |name| && p <= name && name[|name| - 3..] == SO_EXTENSION {
      var n := |name|;
      assert name[n - 3] == '.' && name[n - 2] == 's' && name[n - 1] == 'o';
      assert LastDot(name) == Some(n - 3);
      assert p[0] == name[0];
      assert name != "." && name != "..";
      assert ExtensionStart(name) == Some(n - 3);
      assert p <= name[..n - 3];
    }
  }

  /** A later suffix such as ".so.1" is not the ".so" extension. */
  lemma VersionedLibraryRejected(prefix: string)
    ensures !IsPluginFileName(prefix + "CompilerPlugin.so.1", prefix)
  {
    var name := prefix + "CompilerPlugin.so.1";
    PluginNameCharacterization(name, prefix);
    assert name[|name| - 1] == '1';
  }

  /** A plugin built for one vendor prefix is not picked up under another. */
  lemma OtherVendorRejected(prefix: string)
    requires prefix != "foo"
    ensures !IsPluginFileName("fooCompilerPlugin.so", prefix)
  {
    var name := "fooCompilerPlugin.so";
    var p := PluginPattern(prefix);
    assert !(|p| + 3 <= |name| && p <= name) by {
      if |prefix| < 3 {
        assert p[|prefix|] == 'C' != name[|prefix|];
      } else if |prefix| == 3 {
        assert p[..3] == prefix != name[..3];
      }
    }
    PluginNameCharacterization(name, prefix);
  }

  // ---------------------------------------------------------------------------
  // Discovery
  // ---------------------------------------------------------------------------

  /** A directory entry: a regular file, a directory with its entries in iteration order, or anything else. */
  datatype Entry =
    | File(name: string)
    | Directory(name: string, children: seq<Entry>)
    | OtherEntry(name: string)

  /** `dir / name` for a plain file name. */
  function JoinPath(dir: string, name: string): string
  {
    if dir == [] || dir[|dir| - 1] == '/' then dir + name else dir + "/" + name
  }

  /** The joined path starts with the directory and ends with the name, and a non-empty directory is followed by a '/'. */
  lemma JoinPathShape(dir: string, name: string)
    ensures var r := JoinPath(dir, name);
            dir <= r && |r| >= |dir| + |name| && r[|r| - |name|..] == name
            && (dir != [] ==> r[|r| - |name| - 1] == '/')
  {
  }

  /** A regular file met during the walk: its full path and its file name. */
  datatype FoundFile = FoundFile(path: string, name: string)

  /** Every regular file under the entries of directory `dir`, in visit order. */
  function AllFilesIn(dir: string, entries: seq<Entry>): seq<FoundFile>
    decreases entries
  {
    if entries == [] then []
    else AllFilesIn(dir, entries[..|entries| - 1]) + AllFilesAt(dir, entries[|entries| - 1])
  }

  function AllFilesAt(dir: string, entry: Entry): seq<FoundFile>
    decreases entry
  {
    match entry
    case File(name) => [FoundFile(JoinPath(dir, name), name)]
    case Directory(name, children) => AllFilesIn(JoinPath(dir, name), children)
    case OtherEntry(_) => []
  }

  /** The paths of the files whose names `accept` admits, order kept. */
  function PathsAccepted(files: seq<FoundFile>, accept: string -> bool): seq<string>
  {
    if files == [] then []
    else (if accept(files[0].name) then [files[0].path] else []) + PathsAccepted(files[1..], accept)
  }

  /** Filtering distributes over concatenation. */
  lemma {:induction false} PathsAcceptedAppend(a: seq<FoundFile>, b: seq<FoundFile>, accept: string -> bool)
    ensures PathsAccepted(a + b, accept) == PathsAccepted(a, accept) + PathsAccepted(b, accept)
  {
    if a != [] {
      assert (a + b)[0] == a[0];
      assert (a + b)[1..] == a[1..] + b;
      PathsAcceptedAppend(a[1..], b, accept);
    } else {
      assert a + b == b;
    }
  }

  /** The paths of the files whose names follow the plugin rule, order kept. */
  function MatchingPaths(files: seq<FoundFile>, prefix: string): seq<string>
  {
    PathsAccepted(files, name => IsPluginFileName(name, prefix))
  }

  /** What one walk of `dir` appends: the plugin files below it, in visit order. */
  function PluginsIn(dir: string, entries: seq<Entry>, prefix: string): seq<string>
    decreases entries
  {
    if entries == [] then []
    else PluginsIn(dir, entries[..|entries| - 1], prefix) + PluginsAt(dir, entries[|entries| - 1], prefix)
  }

  function PluginsAt(dir: string, entry: Entry, prefix: string): seq<string>
    decreases entry
  {
    match entry
    case File(name) => if IsPluginFileName(name, prefix) then [JoinPath(dir, name)] else []
    case Directory(name, children) => PluginsIn(JoinPath(dir, name), children, prefix)
    case OtherEntry(_) => []
  }

  /**
   * The walk finds exactly the regular files of the tree whose names follow the
   * plugin rule, in the order it visits them, at every depth.
   */
  lemma {:induction false} PluginsAreMatchingFiles(dir: string, entries: seq<Entry>, prefix: string)
    ensures PluginsIn(dir, entries, prefix) == MatchingPaths(AllFilesIn(dir, entries), prefix)
    decreases entries
  {
    if entries != [] {
      var init, last := entries[..|entries| - 1], entries[|entries| - 1];
      PluginsAreMatchingFiles(dir, init, prefix);
      PluginsAtAreMatchingFiles(dir, last, prefix);
      PathsAcceptedAppend(AllFilesIn(dir, init), AllFilesAt(dir, last), name => IsPluginFileName(name, prefix));
    }
  }

  lemma {:induction false} PluginsAtAreMatchingFiles(dir: string, entry: Entry, prefix: string)
    ensures PluginsAt(dir, entry, prefix) == MatchingPaths(AllFilesAt(dir, entry), prefix)
    decreases entry
  {
    match entry
    case File(name) =>
      assert MatchingPaths([FoundFile(JoinPath(dir, name), name)][1..], prefix) == [];
    case Directory(name, children) =>
      PluginsAreMatchingFiles(JoinPath(dir, name), children, prefix);
    case OtherEntry(_) =>
  }

  /** Every name made of the pattern, any middle part and ".so" follows the rule. */
  lemma PatternNameMatches(prefix: string, middle: string)
    ensures IsPluginFileName(PluginPattern(prefix) + middle + SO_EXTENSION, prefix)
  {
    var p, name := PluginPattern(prefix), PluginPattern(prefix) + middle + SO_EXTENSION;
    PluginNameCharacterization(name, prefix);
    assert name[..|p|] == p;
    assert name[|name| - 3..] == SO_EXTENSION;
  }

  /** One step of the walk: the entries before the last, then the last entry. */
  lemma PluginsInSnoc(dir: string, entries: seq<Entry>, entry: Entry, prefix: string)
    ensures PluginsIn(dir, entries + [entry], prefix) == PluginsIn(dir, entries, prefix) + PluginsAt(dir, entry, prefix)
  {
    assert (entries + [entry])[..|entries|] == entries;
  }

  /** A walk over three entries is the three contributions, in order. */
  lemma PluginsInThree(dir: string, x: Entry, y: Entry, z: Entry, prefix: string)
    ensures PluginsIn(dir, [x, y, z], prefix)
            == PluginsAt(dir, x, prefix) + PluginsAt(dir, y, prefix) + PluginsAt(dir, z, prefix)
  {
    assert PluginsIn(dir, [x], prefix) == PluginsAt(dir, x, prefix) by {
      PluginsInSnoc(dir, [], x, prefix);
      assert [] + [x] == [x];
    }
    assert PluginsIn(dir, [x, y], prefix) == PluginsIn(dir, [x], prefix) + PluginsAt(dir, y, prefix) by {
      PluginsInSnoc(dir, [x], y, prefix);
      assert [x] + [y] == [x, y];
    }
    assert PluginsIn(dir, [x, y, z], prefix) == PluginsIn(dir, [x, y], prefix) + PluginsAt(dir, z, prefix) by {
      PluginsInSnoc(dir, [x, y], z, prefix);
      assert [x, y] + [z] == [x, y, z];
    }
  }

  /** A name that does not start with the pattern is not a plugin. */
  lemma NonPatternRejected(name: string, prefix: string)
    requires !(PluginPattern(prefix) <= name)
    ensures !IsPluginFileName(name, prefix)
  {
    PluginNameCharacterization(name, prefix);
  }

  /** A directory holding one plugin yields that plugin's path below the directory. */
  lemma SinglePluginDirectory(dir: string, name: string, prefix: string)
    requires IsPluginFileName(name, prefix)
    ensures PluginsAt(dir, Directory("nested", [File(name)]), prefix) == [JoinPath(JoinPath(dir, "nested"), name)]
  {
    PluginsInSnoc(JoinPath(dir, "nested"), [], File(name), prefix);
    assert [] + [File(name)] == [File(name)];
  }

  /**
   * A tree holding two plugins, one of them in a nested directory, and a file whose
   * name does not start with the pattern: the walk finds the two plugins, in order.
   */
  lemma TwoPluginsFound(root: string, prefix: string, other: string)
    requires !(PluginPattern(prefix) <= other)
    ensures var a, b := PluginPattern(prefix) + "_A" + SO_EXTENSION, PluginPattern(prefix) + "_B" + SO_EXTENSION;
            PluginsIn(root, [File(a), File(other), Directory("nested", [File(b)])], prefix)
            == [JoinPath(root, a), JoinPath(JoinPath(root, "nested"), b)]
  {
    var a, b := PluginPattern(prefix) + "_A" + SO_EXTENSION, PluginPattern(prefix) + "_B" + SO_EXTENSION;
    PatternNameMatches(prefix, "_A");
    PatternNameMatches(prefix, "_B");
    NonPatternRejected(other, prefix);
    SinglePluginDirectory(root, b, prefix);
    PluginsInThree(root, File(a), File(other), Directory("nested", [File(b)]), prefix);
  }

  /**
   * One more entry of a directory walked: if `before` holds what the first `i` entries
   * appended and `after` adds what entry `i` contributes, `after` holds the first `i + 1`.
   */
  lemma PluginsInStep(dir: string, entries: seq<Entry>, i: nat, prefix: string,
                      results: seq<string>, before: seq<string>, after: seq<string>)
    requires i < |entries|
    requires before == results + PluginsIn(dir, entries[..i], prefix)
    requires after == before + PluginsAt(dir, entries[i], prefix)
    ensures after == results + PluginsIn(dir, entries[..i + 1], prefix)
  {
    var init := entries[..i + 1];
    assert PluginsIn(dir, init, prefix) == PluginsIn(dir, entries[..i], prefix) + PluginsAt(dir, entries[i], prefix) by {
      assert init[..|init| - 1] == entries[..i] && init[|init| - 1] == entries[i];
    }
    assert after == results + (PluginsIn(dir, entries[..i], prefix) + PluginsAt(dir, entries[i], prefix));
  }

  /**
   * Walks one directory, appending plugin paths to `results` (passed in and out, as
   * the C++ vector is). A missing search path is an invalid argument and leaves
   * `results` as it was. A nested directory is always walked; its status is ignored.
   * `node` is what `searchPath` names in the tree: None when it does not exist.
   */
  method FindLiteRtSharedLibsHelper(searchPath: string, node: Option<Entry>, prefix: string, results: seq<string>)
    returns (status: LiteRtStatus, resultsOut: seq<string>)
    requires node.Some? ==> node.value.Directory?
    ensures node.None? ==> status == ErrorInvalidArgument && resultsOut == results
    ensures node.Some? ==> status == StatusOk && resultsOut == results + PluginsIn(searchPath, node.value.children, prefix)
    decreases if node.Some? then node.value else OtherEntry("")
  {
    if node.None? {
      return ErrorInvalidArgument, results;
    }
    var pattern := PluginPattern(prefix);
    var entries := node.value.children;
    resultsOut := results;
    var i := 0;
    while i < |entries|
      invariant 0 <= i <= |entries|
      invariant resultsOut == results + PluginsIn(searchPath, entries[..i], prefix)
    {
      var entry := entries[i];
      var path := JoinPath(searchPath, entry.name);
      ghost var before := resultsOut;
      match entry {
        case File(name) =>
          var stem, ext := Stem(name), Extension(name);
          if Find(stem, pattern) == 0 && SO_EXTENSION == ext {
            resultsOut := resultsOut + [path];
          }
        case Directory(_, _) =>
          assert entry < node.value;
          var _, nested := FindLiteRtSharedLibsHelper(path, Some(entry), prefix, resultsOut);
          resultsOut := nested;
        case OtherEntry(_) =>
      }
      PluginsInStep(searchPath, entries, i, prefix, results, before, resultsOut);
      i := i + 1;
    }
    assert entries[..i] == entries;
    status := StatusOk;
  }

  /** Discovery from a search root: the helper applied to the root. */
  method FindLiteRtSharedLibs(searchPath: string, root: Option<Entry>, prefix: string, results: seq<string>)
    returns (status: LiteRtStatus, resultsOut: seq<string>)
    requires root.Some? ==> root.value.Directory?
    ensures root.None? ==> status == ErrorInvalidArgument && resultsOut == results
    ensures root.Some? ==>
              status == StatusOk && resultsOut == results + MatchingPaths(AllFilesIn(searchPath, root.value.children), prefix)
  {
    status, resultsOut := FindLiteRtSharedLibsHelper(searchPath, root, prefix, results);
    if root.Some? {
      PluginsAreMatchingFiles(searchPath, root.value.children, prefix);
    }
  }
}

=== FILE: range.dfy ===
/**
 * The RANGE kernel on integer tensors: it validates the scalar inputs start, limit
 * and delta, sizes a 1-D output to the number of elements of the arithmetic
 * sequence start, start + delta, ... strictly before limit, and fills it. When all
 * three inputs are constant the output is computed once during Prepare and Eval
 * does nothing.
 *
 * Values are mathematical integers; the C++ overflow in the size computation is
 * stated separately (GetSizeInt32AsWritten).
 */
module Range {

  datatype TfLiteStatus = TfLiteOk | TfLiteError

  /** A result of a `TF_LITE_ENSURE`-guarded computation: a value, or kTfLiteError. */
  datatype Checked<+T> = Ok(value: T) | Error

  datatype TfLiteType = Float32 | Int32 | Int64 | UnsupportedType(code: nat)

  /** How a tensor's memory is managed; MmapRo is a constant tensor in the model file. */
  datatype AllocationType = MmapRo | ArenaRw | PersistentRo | Dynamic

  /** An input tensor: its type, its shape and (for a scalar) the value it holds. */
  datatype InputTensor = InputTensor(dtype: TfLiteType, dims: seq<int>, value: int, allocation: AllocationType)

  const INT32_MIN: int := -0x8000_0000
  const INT32_MAX: int := 0x7fff_ffff
  const INT64_MIN: int := -0x8000_0000_0000_0000
  const INT64_MAX: int := 0x7fff_ffff_ffff_ffff

  /** The value is representable in the tensor's integer type. */
  predicate FitsIn(value: int, dtype: TfLiteType)
  {
    match dtype
    case Int32 => INT32_MIN <= value <= INT32_MAX
    case Int64 => INT64_MIN <= value <= INT64_MAX
    case _ => true
  }

  predicate IsConstantOrPersistent(t: InputTensor)
  {
    t.allocation == MmapRo || t.allocation == PersistentRo
  }

  function Abs(x: int): nat
  {
    if x < 0 then -x else x
  }

  // ---------------------------------------------------------------------------
  // The size of the output
  // ---------------------------------------------------------------------------

  /** The i-th element of the sequence. */
  function Element(start: int, delta: int, i: int): int
  {
    start + i * delta
  }

  /** `value` lies strictly before `limit` when walking in the direction of `delta`. */
  predicate StrictlyBefore(value: int, limit: int, delta: int)
  {
    if delta > 0 then value < limit else value > limit
  }

  /** The directions of `delta` and of `limit - start` agree (or start == limit). */
  predicate ConsistentDirection(start: int, limit: int, delta: int)
  {
    (start >= limit && delta < 0) || (start <= limit && delta > 0)
  }

  /**
   * `GetSize` for integer types: rejects a zero step and a step pointing away from
   * limit, and otherwise gives the ceiling of |limit - start| / |delta| (both
   * operands are non-negative, so Dafny's division agrees with C++'s here).
   */
  function GetSize(start: int, limit: int, delta: int): (r: Checked<int>)
    ensures r.Error? <==> delta == 0 || !ConsistentDirection(start, limit, delta)
    ensures r.Ok? ==> r.value >= 0
  {
    if delta == 0 then Error
    else if !ConsistentDirection(start, limit, delta) then Error
    else Ok((Abs(limit - start) + Abs(delta) - 1) / Abs(delta))
  }

  lemma MulMonotone(a: int, b: int, d: nat)
    requires a <= b
    ensures a * d <= b * d
  {
  }

  /** `i` whole steps of `d` stay below `n` exactly when `i` is below the ceiling of `n / d`. */
  lemma CeilingCounts(n: nat, d: nat, i: nat)
    requires d > 0
    ensures i * d < n <==> i < (n + d - 1) / d
  {
    var q: int, m: int := (n + d - 1) / d, (n + d - 1) % d;
    assert n + d - 1 == q * d + m && 0 <= m < d;
    if i < q {
      MulMonotone(i, q - 1, d);
      assert (q - 1) * d == q * d - d;
    } else {
      MulMonotone(q, i, d);
    }
  }

  /** Walking towards limit, element `i` is before limit exactly when `i` steps cover less than the distance. */
  lemma BeforeLimitByDistance(start: int, limit: int, delta: int, i: nat)
    requires delta != 0 && ConsistentDirection(start, limit, delta)
    ensures StrictlyBefore(Element(start, delta, i), limit, delta) <==> i * Abs(delta) < Abs(limit - start)
  {
    if delta > 0 {
      assert i * delta == i * Abs(delta);
    } else {
      assert i * delta == -(i * Abs(delta));
    }
  }

  /**
   * The size GetSize computes is the number of elements: the i-th element lies
   * strictly before limit exactly when i < size. In particular start == limit gives
   * 0, the last element is still before limit, and the next one reaches or passes it.
   */
  lemma GetSizeCountsElements(start: int, limit: int, delta: int)
    requires GetSize(start, limit, delta).Ok?
    ensures var size := GetSize(start, limit, delta).value;
            && (forall i :: 0 <= i ==> (i < size <==> StrictlyBefore(Element(start, delta, i), limit, delta)))
            && (start == limit ==> size == 0)
            && (size > 0 ==> StrictlyBefore(Element(start, delta, size - 1), limit, delta))
            && !StrictlyBefore(Element(start, delta, size), limit, delta)
  {
    var size := GetSize(start, limit, delta).value;
    var n, d := Abs(limit - start), Abs(delta);
    assert forall i :: 0 <= i ==> (i < size <==> StrictlyBefore(Element(start, delta, i), limit, delta)) by {
      forall i | 0 <= i
        ensures i < size <==> StrictlyBefore(Element(start, delta, i), limit, delta)
      {
        CeilingCounts(n, d, i);
        BeforeLimitByDistance(start, limit, delta, i);
      }
    }
    assert start == limit ==> size == 0 by {
      CeilingCounts(n, d, 0);
    }
    assert size > 0 ==> StrictlyBefore(Element(start, delta, size - 1), limit, delta) by {
      if size > 0 {
        CeilingCounts(n, d, size - 1);
        BeforeLimitByDistance(start, limit, delta, size - 1);
      }
    }
    assert !StrictlyBefore(Element(start, delta, size), limit, delta) by {
      CeilingCounts(n, d, size);
      BeforeLimitByDistance(start, limit, delta, size);
    }
  }

  // ---------------------------------------------------------------------------
  // The size computation as the C++ writes it, on int32_t
  // ---------------------------------------------------------------------------

  /** Two's-complement wrap-around to 32 bits (what signed overflow does in practice). */
  function WrapInt32(x: int): int
  {
    var m := x % 0x1_0000_0000;
    if m > INT32_MAX then m - 0x1_0000_0000 else m
  }

  /** A value that fits in 32 bits is its own wrap-around. */
  lemma WrapInt32Identity(x: int)
    requires FitsIn(x, Int32)
    ensures WrapInt32(x) == x
  {
    if x >= 0 {
      assert x % 0x1_0000_0000 == x;
    } else {
      assert x % 0x1_0000_0000 == x + 0x1_0000_0000;
    }
  }

  /** C++ integer division, which truncates toward zero. */
  function TruncDiv(a: int, b: int): int
    requires b > 0
  {
    if a >= 0 then a / b else -((-a) / b)
  }

  /**
   * `GetSize<int32_t>` with the numerator `abs(limit - start) + abs(delta) - 1`
   * evaluated in 32 bits. The subtraction and the `abs` calls are assumed not to
   * overflow (that is undefined behaviour the caller must avoid); the addition can.
   */
  function GetSizeInt32AsWritten(start: int, limit: int, delta: int): (r: Checked<int>)
    requires FitsIn(start, Int32) && FitsIn(limit, Int32) && FitsIn(delta, Int32)
    requires FitsIn(limit - start, Int32) && delta != INT32_MIN
    ensures r.Error? <==> GetSize(start, limit, delta).Error?
  {
    if delta == 0 then Error
    else if !ConsistentDirection(start, limit, delta) then Error
    else Ok(TruncDiv(WrapInt32(WrapInt32(Abs(limit - start) + Abs(delta)) - 1), Abs(delta)))
  }

  /** When the numerator fits in 32 bits, the C++ computation gives the element count. */
  lemma GetSizeInt32AgreesWithoutOverflow(start: int, limit: int, delta: int)
    requires FitsIn(start, Int32) && FitsIn(limit, Int32) && FitsIn(delta, Int32)
    requires FitsIn(limit - start, Int32) && delta != INT32_MIN
    requires Abs(limit - start) + Abs(delta) <= INT32_MAX
    ensures GetSizeInt32AsWritten(start, limit, delta) == GetSize(start, limit, delta)
  {
    var s := Abs(limit - start) + Abs(delta);
    WrapInt32Identity(s);
    if delta != 0 {
      WrapInt32Identity(s - 1);
      assert TruncDiv(s - 1, Abs(delta)) == (s - 1) / Abs(delta);
    }
  }

  /**
   * range(0, 2147483647, 1073741824) has two elements, 0 and 1073741824, but the
   * 32-bit numerator 2147483647 + 1073741824 - 1 wraps around and the C++ size is -1.
   */
  lemma GetSizeInt32Overflows()
    ensures GetSize(0, INT32_MAX, 0x4000_0000) == Ok(2)
    ensures GetSizeInt32AsWritten(0, INT32_MAX, 0x4000_0000) == Ok(-1)
  {
    assert (INT32_MAX + 0x4000_0000 - 1) / 0x4000_0000 == 2;
    assert WrapInt32(INT32_MAX + 0x4000_0000) == -1073741825;
    WrapInt32Identity(-1073741826);
    assert TruncDiv(-1073741826, 0x4000_0000) == -1;
  }

  /**
   * The arithmetic of `GetSize<T>` stays inside the element type: `limit - start` and
   * `abs(limit - start) + abs(delta)` fit in `dtype`, and the count fits in the C++
   * `int` it is stored in. Nothing is computed when GetSize rejects the inputs.
   */
  predicate SizeFits(start: int, limit: int, delta: int, dtype: TfLiteType)
  {
    GetSize(start, limit, delta).Ok? ==>
      && FitsIn(limit - start, dtype)
      && FitsIn(Abs(limit - start) + Abs(delta), dtype)
      && GetSize(start, limit, delta).value <= INT32_MAX
  }

  /** On int32 inputs whose size computation fits, the C++ value is the exact count. */
  lemma SizeFitsMeansExactInt32(start: int, limit: int, delta: int)
    requires FitsIn(start, Int32) && FitsIn(limit, Int32) && FitsIn(delta, Int32)
    requires GetSize(start, limit, delta).Ok? && SizeFits(start, limit, delta, Int32)
    ensures delta != INT32_MIN && FitsIn(limit - start, Int32)
    ensures GetSizeInt32AsWritten(start, limit, delta) == GetSize(start, limit, delta)
  {
    GetSizeInt32AgreesWithoutOverflow(start, limit, delta);
  }

  /** The overflowing input of GetSizeInt32Overflows is one whose size computation does not fit. */
  lemma OverflowingInputDoesNotFit()
    ensures !SizeFits(0, INT32_MAX, 0x4000_0000, Int32)
    ensures !SizeFits(INT32_MIN, INT32_MAX, 1, Int32)
  {
    assert GetSize(0, INT32_MAX, 0x4000_0000).Ok?;
    assert GetSize(INT32_MIN, INT32_MAX, 1).Ok?;
  }

  // ---------------------------------------------------------------------------
  // Filling the output
  // ---------------------------------------------------------------------------

  /** The first `count` elements of the sequence. */
  function RangeValues(start: int, delta: int, count: nat): (r: seq<int>)
    ensures |r| == count
  {
    seq(count, i => Element(start, delta, i))
  }

  /**
   * `CalculateRange`: writes start, start + delta, start + 2 * delta, ... into every
   * element of the output, by repeatedly adding delta to a running value.
   */
  method CalculateRange(startValue: int, deltaValue: int, output: array<int>)
    modifies output
    ensures output[..] == RangeValues(startValue, deltaValue, output.Length)
  {
    var value := startValue;
    var i := 0;
    while i < output.Length
      invariant 0 <= i <= output.Length
      invariant value == Element(startValue, deltaValue, i)
      invariant forall k :: 0 <= k < i ==> output[k] == Element(startValue, deltaValue, k)
    {
      output[i] := value;
      value := value + deltaValue;
      i := i + 1;
    }
  }

  // ---------------------------------------------------------------------------
  // The output tensor and the kernel's per-node data
  // ---------------------------------------------------------------------------

  /** The product of the dimensions: the number of elements of a tensor of that shape. */
  function NumElements(dims: seq<int>): int
  {
    if dims == [] then 1 else NumElements(dims[..|dims| - 1]) * dims[|dims| - 1]
  }

  class OutputTensor {
    var dtype: TfLiteType
    var allocation: AllocationType
    var dims: seq<int>
    var data: array<int>
    /** The buffer was freed and `data.raw` is null; `data` is then empty. */
    var released: bool

    /** The buffer holds exactly as many elements as the shape says, or none once freed. */
    ghost predicate Valid()
      reads this
    {
      data.Length == if released then 0 else NumElements(dims)
    }

    constructor (dtype: TfLiteType, allocation: AllocationType, dims: seq<int>, data: array<int>)
      requires data.Length == NumElements(dims)
      ensures Valid()
      ensures this.dtype == dtype && this.allocation == allocation && this.dims == dims && this.data == data
      ensures !released
    {
      this.dtype := dtype;
      this.allocation := allocation;
      this.dims := dims;
      this.data := data;
      this.released := false;
    }

    /** `context->ResizeTensor` to a 1-D shape: a fresh buffer of `size` elements. */
    method Resize(size: nat)
      modifies this
      ensures Valid() && dims == [size] && fresh(data) && data.Length == size && !released
      ensures dtype == old(dtype) && allocation == old(allocation)
    {
      dims := [size];
      assert NumElements(dims) == NumElements([]) * size;
      data := new int[size];
      released := false;
    }

    /**
     * `SetTensorToDynamic` and `SetTensorToPersistentRo`: when the allocation type
     * changes, the tensor's data is freed and left null; the shape and the element
     * type stay. When it already has that type, nothing happens.
     */
    method SetAllocationType(kind: AllocationType)
      modifies this
      ensures allocation == kind && dtype == old(dtype) && dims == old(dims)
      ensures old(allocation) == kind ==> data == old(data) && released == old(released)
      ensures old(allocation) != kind ==> released && fresh(data) && data.Length == 0
      ensures old(Valid()) ==> Valid()
    {
      if allocation != kind {
        data := new int[0];
        released := true;
        allocation := kind;
      }
    }
  }

  /** `OpData`: whether Prepare already produced the output, so that Eval has nothing to do. */
  class OpData {
    var noop: bool

    /** `Init` allocates the record without initialising `noop`; Prepare sets it before Eval reads it. */
    constructor (noop: bool)
      ensures this.noop == noop
    {
      this.noop := noop;
    }
  }

  /** The count GetSize gives for the three scalar inputs. */
  function SizeOf(start: InputTensor, limit: InputTensor, delta: InputTensor): Checked<int>
  {
    GetSize(start.value, limit.value, delta.value)
  }

  /**
   * `ResizeOutput`: sizes the output as a 1-D tensor whose only dimension is the
   * element count; an unknown type or a rejected size leaves it untouched.
   */
  method ResizeOutput(start: InputTensor, limit: InputTensor, delta: InputTensor, output: OutputTensor)
    returns (status: TfLiteStatus)
    requires start.dtype != Float32
    requires SizeFits(start.value, limit.value, delta.value, start.dtype)
    modifies output
    ensures start.dtype.UnsupportedType? ==> status == TfLiteError && unchanged(output)
    ensures !start.dtype.UnsupportedType? && SizeOf(start, limit, delta).Error? ==>
              status == TfLiteError && unchanged(output)
    ensures !start.dtype.UnsupportedType? && SizeOf(start, limit, delta).Ok? ==>
              && status == TfLiteOk && output.Valid()
              && output.dims == [SizeOf(start, limit, delta).value]
              && fresh(output.data) && output.data.Length == SizeOf(start, limit, delta).value && !output.released
              && output.dtype == old(output.dtype) && output.allocation == old(output.allocation)
  {
    if start.dtype.UnsupportedType? {
      return TfLiteError;
    }
    var size := GetSize(start.value, limit.value, delta.value);
    if size.Error? {
      return TfLiteError;
    }
    output.Resize(size.value);
    status := TfLiteOk;
  }

  /** `EvalImpl`: fills the output for an integer output type; any other type is an error. */
  method EvalImpl(start: InputTensor, delta: InputTensor, output: OutputTensor) returns (status: TfLiteStatus)
    requires output.Valid() && output.dtype != Float32
    modifies output.data
    ensures output.dtype.UnsupportedType? ==> status == TfLiteError && unchanged(output.data)
    ensures !output.dtype.UnsupportedType? ==>
              status == TfLiteOk && output.data[..] == RangeValues(start.value, delta.value, output.data.Length)
  {
    if output.dtype.UnsupportedType? {
      return TfLiteError;
    }
    CalculateRange(start.value, delta.value, output.data);
    status := TfLiteOk;
  }

  // ---------------------------------------------------------------------------
  // Prepare and Eval
  // ---------------------------------------------------------------------------

  predicate SupportedType(dtype: TfLiteType)
  {
    dtype == Float32 || dtype == Int32 || dtype == Int64
  }

  /**
   * The checks Prepare makes once the node has three inputs and one output: every
   * input is a scalar, start has a supported type, and limit and delta share it.
   */
  predicate InputsAccepted(inputs: seq<InputTensor>)
    requires |inputs| == 3
  {
    && inputs[0].dims == [] && inputs[1].dims == [] && inputs[2].dims == []
    && SupportedType(inputs[0].dtype)
    && inputs[1].dtype == inputs[0].dtype && inputs[2].dtype == inputs[0].dtype
  }

  predicate AllConstant(inputs: seq<InputTensor>)
    requires |inputs| == 3
  {
    IsConstantOrPersistent(inputs[0]) && IsConstantOrPersistent(inputs[1]) && IsConstantOrPersistent(inputs[2])
  }

  /** Each input holds a value of its own type. */
  predicate WellFormed(inputs: seq<InputTensor>)
  {
    forall k :: 0 <= k < |inputs| ==> FitsIn(inputs[k].value, inputs[k].dtype)
  }

  /**
   * What switching the output to its current allocation type did to its buffer:
   * the old buffer is kept when the type did not change, and freed otherwise.
   */
  ghost predicate OutputReleasedOnChange(output: OutputTensor, oldAllocation: AllocationType, oldData: array<int>, oldReleased: bool)
    reads output
  {
    && (oldAllocation == output.allocation ==> output.data == oldData && output.released == oldReleased)
    && (oldAllocation != output.allocation ==> output.released && output.data.Length == 0)
  }

  /**
   * `Prepare`. A node without exactly three inputs and one output is rejected before
   * anything changes. Otherwise `noop` is cleared and the inputs are checked; when
   * they pass, the output takes start's type. With three constant inputs the output
   * is made persistent, sized and filled here, and `noop` is set once the size is
   * accepted; otherwise the output is made dynamic and left for Eval. Either switch
   * of allocation type frees the buffer the output had.
   */
  method Prepare(inputs: seq<InputTensor>, numOutputs: nat, output: OutputTensor, opData: OpData)
    returns (status: TfLiteStatus)
    requires WellFormed(inputs) && output.Valid()
    requires |inputs| == 3 && AllConstant(inputs) ==> inputs[0].dtype != Float32
    requires |inputs| == 3 && InputsAccepted(inputs) && AllConstant(inputs) ==>
               SizeFits(inputs[0].value, inputs[1].value, inputs[2].value, inputs[0].dtype)
    modifies output, opData
    ensures output.Valid()
    ensures output.data == old(output.data) || fresh(output.data)
    ensures |inputs| != 3 || numOutputs != 1 ==>
              status == TfLiteError && unchanged(output) && unchanged(opData)
    ensures |inputs| == 3 && numOutputs == 1 && !InputsAccepted(inputs) ==>
              status == TfLiteError && unchanged(output) && !opData.noop
    ensures |inputs| == 3 && numOutputs == 1 && InputsAccepted(inputs) && !AllConstant(inputs) ==>
              && status == TfLiteOk && !opData.noop
              && output.dtype == inputs[0].dtype && output.allocation == Dynamic
              && output.dims == old(output.dims) && OutputReleasedOnChange(output, old(output.allocation), old(output.data), old(output.released))
    ensures |inputs| == 3 && numOutputs == 1 && InputsAccepted(inputs) && AllConstant(inputs) ==>
              && output.dtype == inputs[0].dtype && output.allocation == PersistentRo
              && (SizeOf(inputs[0], inputs[1], inputs[2]).Error? ==>
                    && status == TfLiteError && !opData.noop && output.dims == old(output.dims)
                    && OutputReleasedOnChange(output, old(output.allocation), old(output.data), old(output.released)))
              && (SizeOf(inputs[0], inputs[1], inputs[2]).Ok? ==>
                    var size := SizeOf(inputs[0], inputs[1], inputs[2]).value;
                    status == TfLiteOk && opData.noop && output.dims == [size] && fresh(output.data) && !output.released
                    && output.data[..] == RangeValues(inputs[0].value, inputs[2].value, size))
  {
    if |inputs| != 3 || numOutputs != 1 {
      return TfLiteError;
    }
    opData.noop := false;
    var start, limit, delta := inputs[0], inputs[1], inputs[2];
    if start.dims != [] || limit.dims != [] || delta.dims != [] {
      return TfLiteError;
    }
    var dtype := start.dtype;
    if dtype != Float32 && dtype != Int32 && dtype != Int64 {
      return TfLiteError;
    }
    if limit.dtype != dtype || delta.dtype != dtype {
      return TfLiteError;
    }
    output.dtype := dtype;

    if IsConstantOrPersistent(start) && IsConstantOrPersistent(limit) && IsConstantOrPersistent(delta) {
      output.SetAllocationType(PersistentRo);
      var resized := ResizeOutput(start, limit, delta, output);
      if resized != TfLiteOk {
        return resized;
      }
      opData.noop := true;
      status := EvalImpl(start, delta, output);
      return;
    }

    output.SetAllocationType(Dynamic);
    status := TfLiteOk;
  }

  /**
   * `Eval`. Fewer than three inputs cannot be fetched. After a constant Prepare
   * (`noop`) it succeeds without touching the output. Otherwise a dynamic output is
   * first resized to the element count, and the output is filled with the sequence.
   */
  method Eval(inputs: seq<InputTensor>, output: OutputTensor, opData: OpData) returns (status: TfLiteStatus)
    requires output.Valid()
    requires |inputs| >= 3 && !opData.noop ==> inputs[0].dtype != Float32 && output.dtype != Float32
    requires |inputs| >= 3 && !opData.noop && output.allocation == Dynamic ==>
               SizeFits(inputs[0].value, inputs[1].value, inputs[2].value, inputs[0].dtype)
    modifies output, output.data
    ensures output.Valid()
    ensures |inputs| < 3 ==> status == TfLiteError && unchanged(output) && unchanged(output.data)
    ensures |inputs| >= 3 && opData.noop ==> status == TfLiteOk && unchanged(output) && unchanged(output.data)
    ensures |inputs| >= 3 && !opData.noop && old(output.allocation) == Dynamic ==>
              && output.dtype == old(output.dtype) && output.allocation == Dynamic
              && (SizeOf(inputs[0], inputs[1], inputs[2]).Error? || inputs[0].dtype.UnsupportedType? ==>
                    status == TfLiteError && unchanged(output) && unchanged(output.data))
              && (SizeOf(inputs[0], inputs[1], inputs[2]).Ok? && !inputs[0].dtype.UnsupportedType? ==>
                    var size := SizeOf(inputs[0], inputs[1], inputs[2]).value;
                    && output.dims == [size] && fresh(output.data)
                    && (output.dtype.UnsupportedType? ==> status == TfLiteError)
                    && (!output.dtype.UnsupportedType? ==>
                          status == TfLiteOk && output.data[..] == RangeValues(inputs[0].value, inputs[2].value, size)))
    ensures |inputs| >= 3 && !opData.noop && old(output.allocation) != Dynamic ==>
              && output.dims == old(output.dims) && output.data == old(output.data)
              && (output.dtype.UnsupportedType? ==> status == TfLiteError && unchanged(output.data))
              && (!output.dtype.UnsupportedType? ==>
                    status == TfLiteOk && output.data[..] == RangeValues(inputs[0].value, inputs[2].value, output.data.Length))
  {
    if |inputs| < 3 {
      return TfLiteError;
    }
    var start, limit, delta := inputs[0], inputs[1], inputs[2];
    if opData.noop {
      return TfLiteOk;
    }
    if output.allocation == Dynamic {
      var resized := ResizeOutput(start, limit, delta, output);
      if resized != TfLiteOk {
        return resized;
      }
    }
    status := EvalImpl(start, delta, output);
  }

  /**
   * Prepare followed by Eval on a node with accepted integer inputs whose size
   * computation fits their type: whichever way the work is split between them, both
   * succeed exactly when GetSize accepts the inputs, and the output then holds
   * exactly the elements strictly before limit.
   */
  method PrepareThenEval(inputs: seq<InputTensor>, output: OutputTensor, opData: OpData)
    returns (prepared: TfLiteStatus, evaluated: TfLiteStatus)
    requires |inputs| == 3 && WellFormed(inputs) && InputsAccepted(inputs) && inputs[0].dtype != Float32
    requires SizeFits(inputs[0].value, inputs[1].value, inputs[2].value, inputs[0].dtype)
    requires output.Valid()
    modifies output, output.data, opData
    ensures SizeOf(inputs[0], inputs[1], inputs[2]).Error? ==>
              prepared == TfLiteError || evaluated == TfLiteError
    ensures SizeOf(inputs[0], inputs[1], inputs[2]).Ok? ==>
              && prepared == TfLiteOk && evaluated == TfLiteOk
              && output.dims == [SizeOf(inputs[0], inputs[1], inputs[2]).value]
              && output.data[..] == RangeValues(inputs[0].value, inputs[2].value, SizeOf(inputs[0], inputs[1], inputs[2]).value)
  {
    prepared := Prepare(inputs, 1, output, opData);
    evaluated := Eval(inputs, output, opData);
  }
}
